=== FILE: README.md ===
# Exploratory data analysis helpers: a Dafny model

This project models the discrete logic of a small Python package for
exploratory analysis of spectroscopy and kinetics data. The curve fitting
and statistics are floating-point work done by numpy and scipy. Around
them sit four pieces of exact, checkable logic, and these are what is
modelled:

- **Line-separator handling** (`eda/utils.py`, `photochemistry/utils.py`).
  - Detecting whether a file uses CR CR LF, CR LF, CR or LF.
  - Rewriting every line's terminator as the platform separator.
  - Counting lines and finding the first blank line of a CSV file.
  Files are replaced by their contents: a binary file is a byte sequence
  (`Bytes`), and a file iterated in text mode is a sequence of lines.
- **The model registry and report** (`eda/models.py`).
  - The table of fit models and their parameter lists.
  - The unit conversion of the half-life.
  - The decision rule and degrees of freedom of the first- versus
    second-order exponential comparison.
  - The lines `print_params` prints.
- **Configuration prompts** (`eda/configure.py`).
  - The per-key parsers applied to typed answers.
  - The answer loop of `ConfigurationManager.record`. The prompts are
    replaced by a scripted sequence of answers, and the YAML section by
    an ordered sequence of entries.

Modules:

- `Wrappers`: `Option` and `Result`.
- `Builtins`: the Python built-ins the code relies on.
  - Slice bounds.
  - `str.isspace`, `strip` and `split`.
  - ASCII `lower`.
  - `int(str)` and `str(int)` in base 10, with `int()`'s whitespace,
    sign and underscore rules. `int()` skips the same whitespace as
    `str.strip` except the separators U+001C-U+001F, which make it fail.
- `EdaUtils`: models `eda/utils.py`.
- `Photochemistry`: models `photochemistry/utils.py`.
- `Models`: models `eda/models.py`.
- `Configure`: models `eda/configure.py`.

Python exceptions become `Err` values. Loops become Dafny methods with
loops, proved against specification functions:

- `FormatNewlines`, `LinuxizeNewlines`, `GetNumberLines`, `GetEndOfData`;
- `PrintParams`;
- `Record` and its inner loop `AskKey`.

Points of the code worth knowing when reading the model:

- `get_t_half` with a zero rate returns numpy's `inf` (`Seconds.Infinite`);
  nothing is raised.
- The F test's numerator degrees of freedom are `len(popt2) - 1`
  (eda/models.py:234).
- The first-order model has the parameters `a` and `k` only, with no offset
  (eda/models.py:30-34 and 65).
- `record` receives the section's keys as `KeyOf` gives them for the names in
  the file, so a parser name always reaches its own parser.

## Model

| member | source | states |
|---|---|---|
| Builtins.SliceToDropLast | eda/utils.py:65 | `s[:-n]` drops the last `n` elements. It leaves nothing when `s` is shorter, and `s[:-0]` is empty. |
| Builtins.StripEmptyIffBlank | eda/utils.py:97 | `line.strip() == ""` holds exactly for lines made only of whitespace. |
| Builtins.SplitJoinWords | eda/configure.py:6 | `split()` of words joined by single spaces gives the words back. |
| Builtins.DigitGroupShape | eda/configure.py:14 | The digit part `int()` accepts is exactly a run of digits joined by single underscores: it starts and ends with a digit, and never holds two underscores in a row. |
| Builtins.ParseIntAccepts | eda/configure.py:14 | `int()` accepts exactly an optional sign followed by such digits, once surrounding whitespace is stripped, and only when the text holds no separator U+001C-U+001F. |
| Builtins.SeparatorNotSkipped | eda/configure.py:14 | A separator U+001C-U+001F is whitespace to `strip` but not to `int()`: `int()` fails on text that starts with one, such as "\x1c5". |
| Builtins.ParseShowInt | eda/configure.py:14 | `int(str(n)) == n` for every integer. |
| EdaUtils.ReadLine | eda/utils.py:40 | `readline()` returns a prefix of the data. It contains no LF before its end, and ends with LF unless it is the whole data. |
| EdaUtils.ReadLines | eda/utils.py:62 | `readlines()` returns non-empty lines that concatenate back to the data. All but the last end with LF, and no line holds an LF before its end, so the data is cut exactly after each LF. The first line is what `readline()` returns. |
| EdaUtils.TextSpellsEncoded | eda/utils.py:41-48 | The string `get_linesep` returns for a separator spells, character for byte, the bytes it was recognised by. |
| EdaUtils.ClassifyLine | eda/utils.py:41-50 | The suffix tests succeed iff the line ends with CR or LF, and the reported separator is a suffix of the line. Otherwise they give the "Could not identify line separator" error. |
| EdaUtils.ClassifyLongestFirst | eda/utils.py:41-48 | Each separator is reported exactly when the line ends with it and not with a longer one tested before it. |
| EdaUtils.ClassifyPicksLongest | eda/utils.py:41-48 | A line that ends with any separator is classified, and the reported separator is the longest one it ends with. |
| EdaUtils.SuffixTest | eda/utils.py:41-47 | Comparing `line[-n:]` with an `n`-byte separator is a suffix test, short lines included. |
| EdaUtils.GetLinesep | eda/utils.py:30-50 | `get_linesep` reports a separator that ends the file's first line. |
| EdaUtils.CrCrLfBeatsCrLf | eda/utils.py:41-44 | A first line ending in CR CR LF is reported as `"\r\r\n"`, not as `"\r\n"`. |
| EdaUtils.EmptyFileUnidentified | eda/utils.py:49-50 | An empty file raises the separator ValueError. |
| EdaUtils.ReadLineIgnoresRest | eda/utils.py:40 | Once the data holds an LF, bytes appended later do not change the first line. |
| EdaUtils.LaterLinesIgnored | eda/utils.py:39-40 | Only the first line is examined: appending anything after a complete first line leaves the result unchanged. |
| EdaUtils.RewriteLine | eda/utils.py:65 | An output line ends with `linesep` and keeps the input minus its last `len_linesep` bytes. A line no longer than that keeps no content. |
| EdaUtils.FormatNewlines | eda/utils.py:53-66 | One output line per input line, in order, each being the rewrite of its input line. |
| EdaUtils.RewriteReplacesTerminator | eda/utils.py:65 | A line ending in the detected separator keeps its content exactly and gets the platform separator instead. |
| EdaUtils.UnterminatedLastLineLosesData | eda/utils.py:62-65 | For the file "1\n2", the separator found is LF and the last line is "2". Rewriting turns that line into the bare separator, so the byte '2' is lost. |
| EdaUtils.RewriteLineFixed | eda/utils.py:65 | The corrected rewrite removes the separator only when the line ends with it. Dropping the new separator and restoring the old one gives back the input line. |
| EdaUtils.RewriteLineFixedAgrees | eda/utils.py:65 | On a line that ends with the separator, the corrected rewrite equals the original one. |
| EdaUtils.GetNumberLines | eda/utils.py:69-81 | Returns the number of lines iterated. |
| EdaUtils.GetEndOfData | eda/utils.py:84-99 | Returns the 1-based index of the first blank line, or the line count when there is none. The result is never more than the line count. |
| Photochemistry.Linuxized | photochemistry/utils.py:15 | An output line ends with `os.linesep` and keeps the input minus its last 3 bytes. A line of 3 bytes or fewer becomes just the separator. |
| Photochemistry.LinuxizeNewlines | photochemistry/utils.py:4-16 | One output line per input line, in order, each being its line's 3-byte rewrite. |
| Photochemistry.LinuxizedIsFormatWithThree | photochemistry/utils.py:15 | The rewrite is `format_newlines`' rewrite with a separator length of 3. |
| Photochemistry.LinuxizedCrCrLf | photochemistry/utils.py:15 | A line ending in CR CR LF keeps its content exactly. |
| Photochemistry.LinuxizedLf | photochemistry/utils.py:15 | Three bytes go whatever the separator: an LF-terminated line also loses two content bytes. |
| Models.GetModelInfo | eda/models.py:53-78 | Succeeds for exactly `exp1`, `exp2` and `linear`, and raises KeyError(name) otherwise. Each entry lists as many parameters as its function takes after `x`. |
| Models.InitialParamsMatchModels | eda/models.py:20-21 | The default starting vectors have the lengths of the exp1 (2) and exp2 (4) parameter lists. |
| Models.UnitMultiplier | eda/models.py:92 | `minutes` and `seconds` are the only units, with positive multipliers. Any other unit raises KeyError. |
| Models.THalf | eda/models.py:81-93 | Defined for exactly the two units. It is infinite exactly when the rate is zero, and otherwise positive. |
| Models.THalfMinutesAreSixtySeconds | eda/models.py:92-93 | The half-life in minutes is 60 times the half-life in seconds for the same rate. |
| Models.THalfIgnoresSign | eda/models.py:93 | The half-life depends on the rate only through its absolute value. |
| Models.THalfDecreasesWithRate | eda/models.py:93 | A faster rate gives a strictly shorter half-life. |
| Models.RateFromHalfLife | eda/models.py:93 | The absolute rate is recovered from the half-life as `ln 2 * multiplier / t`. |
| Models.THalfWorkedExample | eda/models.py:92-93 | A rate of -0.3 per minute gives 200 ln 2 seconds, between 138.62 and 138.63. |
| Models.SelectModel | eda/models.py:236-239 | `second_exp` is returned, with the second fit's results, iff p < 0.05 (strict). Otherwise, at p = 0.05 and for NaN included, the result is `first_exp` with the first fit's results. |
| Models.SelectionLabelIsNotRegistered | eda/models.py:237-239 | The returned labels are not registry names, so `get_model_info` on them raises KeyError. |
| Models.Anova | eda/models.py:220-222 | Regression and residual degrees of freedom add up to the total. The residual ones are positive iff there are more observations than parameters. |
| Models.FTestDegrees | eda/models.py:229-234 | The F test uses (3, n - 4), and the denominator is positive iff n exceeds the exp2 parameter count. |
| Models.FTestNumeratorOverstated | eda/models.py:234 | As written, the numerator is not the number of parameters exp2 adds to exp1. |
| Models.NestedFTestDegrees | eda/models.py:234 | The corrected numerator is the number of added parameters (2), which is positive. The denominator is unchanged. |
| Models.HalfLifeIndices | eda/models.py:262-267 | The half-life positions are valid parameter positions of the registered model, in increasing order. |
| Models.HalfLivesComeFromRates | eda/models.py:262-269 | A parameter position yields a half-life iff it is a rate constant: `k`, `k1` or `k2`. |
| Models.HalfLifeLines | eda/models.py:262-269 | One half-life line per rate position: one for exp1, two for exp2, none for linear. The captions are "t1 (sec)" then "t2 (sec)". Each value is the half-life, in the default unit (minutes), of a `popt` entry at a rate-constant position of the registered model. Line j comes from the j-th of those positions, which increase, so t1 comes from `k1` (`popt[2]`) and t2 from `k2` (`popt[3]`) for exp2. |
| Models.PrintParams | eda/models.py:242-269 | An unknown name prints nothing and raises KeyError. Otherwise the output is the header, one row per parameter, R-square and the half-lives. If `popt` or `errors` is short, the rows stop at the first missing value and IndexError is raised. |
| Configure.KeyOf | eda/configure.py:5-18 | A key name from the configuration file maps to a key written exactly that way. It is `Other` exactly when the name has no parser, so each of the twelve parser names reaches its own parser. |
| Configure.Transform | eda/configure.py:5-18 | Keys without a parser raise KeyError, and the only other failure is a ValueError. Every value is of its key's kind: lists for the list keys, the input unchanged for the text keys, an integer for `skip_header`, and always a boolean for `model`. |
| Configure.SkipHeaderRoundTrip | eda/configure.py:14 | Typing an integer as `str()` writes it gives that integer back for `skip_header`. |
| Configure.SkipHeaderRejectsBlank | eda/configure.py:14 | An answer made only of whitespace is a ValueError for `skip_header`. |
| Configure.ModelFlagIgnoresCase | eda/configure.py:17 | `model` is True exactly for "true" in any letter case, and never fails. |
| Configure.ListRoundTrip | eda/configure.py:6-13 | Typing a list's integers separated by spaces gives that list back. |
| Configure.SaysNoneIsLowerNone | eda/configure.py:53 | The letter-by-letter test equals `answer.lower() == "none"`. |
| Configure.Decide | eda/configure.py:48-66 | Per answer, these rules apply: (1) an empty answer keeps the current value; (2) "none" in any case stores None before any parser runs; (3) a list of length other than 2 asks the same key again; (4) an unknown key raises KeyError; (5) a parsed answer to a key other than a list key is stored; (6) a stored value is the current one, None, or the last parsed value. |
| Configure.Record | eda/configure.py:42-67 | Given a section whose keys are read from the file, the loop over keys and answers computes exactly `RecordFrom`: the new entries, or the exception that ends the call. |
| Configure.AskKey | eda/configure.py:48-66 | The `while True` loop for one key consumes answers until one is stored, and agrees with `RecordFrom` on the rest of the section. |
| Configure.TextAnswerStored | eda/configure.py:8-16 | A text key stores the typed answer itself. |
| Configure.RecordFrom | eda/configure.py:42-67 | When the call completes, the rewritten section has the same keys as before, in the same order, each assigned once. Each list key ends up with its previous value, None, or a value of length 2. |
| Configure.RejectedAnswerStoresStale | eda/configure.py:56-65 | As written, once some answer has parsed, an answer `skip_header` rejects stores that earlier value. |
| Configure.StaleValueStored | eda/configure.py:56-65 | As written, a title answer such as "ab" followed by a `skip_header` answer `int()` rejects, such as "x", stores the text "ab" as `skip_header`. That is a value `skip_header`'s parser never produces. |
| Configure.UnparsableFirstAnswerFails | eda/configure.py:56-65 | As written, an unparsable first answer raises UnboundLocalError. |
| Configure.DecideFixed | eda/configure.py:48-66 | Corrected decision: an empty answer keeps the current value, and "none" stores None. A parsed answer is stored when it is accepted for the key (of the key's kind, and of length 2 for a list key); otherwise the key is asked again. A rejected answer asks again. A stored value is the current one, None, or the parse of this very answer. |
| Configure.RecordFromFixed | eda/configure.py:42-67 | With the correction, the keys are kept in order. Every key ends up with its previous value, None, or a value of its own kind (of length 2 for a list key). |
| Configure.DecideFixedAgrees | eda/configure.py:48-66 | The corrected decision is the original one whenever the answer is empty, "none", or parses. |

## Left out

- Curve fitting, covariance and standard errors (`fit_data`), and the R² and adjusted R² functions are floating-point work done by scipy and numpy.
- Sums of squares, the variance ratio and the F distribution's cdf are floating-point work: the p-value is an input (`PValue`).
- Models.THalf: `np.log(2)` is the exact value of the binary64 constant, and the division and multiplication are exact real arithmetic, not rounded to doubles.
- `compare_exponential_models` as written raises NameError: it references an undefined `PARAM_BOUNDS` (eda/models.py:207) and passes a `loss=` keyword `fit_data` does not accept (eda/models.py:209). Only its decision rule and its degrees of freedom are modelled.
- The three model functions are represented by name and arity only, since evaluating them is `np.exp` arithmetic.
- Models.PrintParams: the numeric formatting (widths, signs, decimals) of the printed lines is not modelled; lines carry unformatted values.
- File opening, reading and writing are replaced by byte sequences and line sequences.
- Text-mode iteration with universal newlines is not modelled: the scans take the lines as given.
- `os.linesep` is a parameter.
- The `log_errors` wrapper, the logging setup and the warnings redirection print, log and exit the process. Failures are `Err` values instead.
- Plotting, CSV reading with pandas, and the command-line front end are not part of this model.
- Packaging (`setup.py`) is not part of this model.
- YAML loading and dumping, `input()` prompts, `print_info`, `ConfigurationManager.default` and the `spectrum`/`kinetics` wrappers (which only call `record`) are left out.
- Configure.Record: a missing subcommand section in the YAML file is not modelled; the section is given.
- Builtins.Lower: only ASCII letters are lower-cased, where Python also folds other alphabets.
- Builtins.ParseInt: Unicode digits other than 0-9, which Python's `int()` also accepts, are not modelled.

## Findings

| source | as written | input that shows it | evidently intended | confidence | as-written member | corrected member |
|---|---|---|---|---|---|---|
| eda/utils.py:65 | `line[:-len_linesep]` cuts the last bytes of every line, including a last line that has no terminator | the file "1\n2": separator LF, last line "2" becomes "\n" | only a present terminator is replaced, so no data byte is lost | medium, not executed | EdaUtils.UnterminatedLastLineLosesData | EdaUtils.RewriteLineFixed |
| eda/models.py:234 | numerator degrees of freedom `len(popt2) - 1` = 3 | any n: the second-order fit adds 2 parameters to the first-order one | the nested-model F test uses the added parameter count, 4 - 2 = 2 | medium, not executed | Models.FTestNumeratorOverstated | Models.NestedFTestDegrees |
| eda/configure.py:56-65 | after a ValueError the loop falls through and stores the previous `trans` | `title` answered "ab", then `skip_header` answered "x": `skip_header` is set to "ab" | "Invalid value" asks for the same key again | high, not executed | Configure.StaleValueStored | Configure.DecideFixed |

=== FILE: builtins.dfy ===
/** The parts of Python's built-in semantics that the repository relies on:
    slice bounds, `str.isspace`, `str.strip`, `str.split`, `str.lower` on ASCII
    letters, and `int(str)` / `str(int)` in base 10. */
module Builtins {
  import opened Wrappers

  type byte = bv8
  type Bytes = seq<byte>

  predicate EndsWith<T(==)>(s: seq<T>, suffix: seq<T>) {
    |suffix| <= |s| && s[|s| - |suffix|..] == suffix
  }

  // ---------------------------------------------------------------------------
  // Slices

  /** Python's normalisation of a slice bound `i` against a sequence of length `n`:
      a negative bound counts from the end, and the result is clamped to `[0, n]`. */
  function SliceBound(n: nat, i: int): (b: nat)
    ensures b <= n
    ensures 0 <= i <= n ==> b == i
    ensures -(n as int) <= i < 0 ==> b == n + i
  {
    if i < 0 then (if n + i < 0 then 0 else n + i)
    else if i > n then n else i
  }

  /** `s[start:]` */
  function SliceFrom<T>(s: seq<T>, start: int): (r: seq<T>)
    ensures |r| <= |s| && r == s[|s| - |r|..]
  {
    s[SliceBound(|s|, start)..]
  }

  /** `s[:stop]` */
  function SliceTo<T>(s: seq<T>, stop: int): (r: seq<T>)
    ensures |r| <= |s| && r == s[..|r|]
  {
    s[..SliceBound(|s|, stop)]
  }

  /** `s[-n:]` keeps the last `n` elements, or all of `s` when it is shorter. */
  lemma SliceFromLast<T>(s: seq<T>, n: nat)
    requires n > 0
    ensures SliceFrom(s, -(n as int)) == if n <= |s| then s[|s| - n..] else s
  {
  }

  /** `s[:-n]` drops the last `n` elements, leaving nothing when `s` is shorter;
      `s[:-0]` is `s[:0]`, which is always empty. */
  lemma SliceToDropLast<T>(s: seq<T>, n: nat)
    ensures n > 0 ==> SliceTo(s, -(n as int)) == if n <= |s| then s[..|s| - n] else []
    ensures n == 0 ==> SliceTo(s, -(n as int)) == []
  {
  }

  // ---------------------------------------------------------------------------
  // Whitespace, strip and split

  /** `c.isspace()`: the characters Python treats as whitespace in `str.strip`
      and `str.split` without arguments. */
  predicate IsSpace(c: char) {
    var n := c as int;
    (9 <= n <= 13) || (0x1C <= n <= 0x20) || n == 0x85 || n == 0xA0 || n == 0x1680
    || (0x2000 <= n <= 0x200A) || n == 0x2028 || n == 0x2029 || n == 0x202F
    || n == 0x205F || n == 0x3000
  }

  predicate IsBlank(s: string) {
    forall i :: 0 <= i < |s| ==> IsSpace(s[i])
  }

  /** `s.lstrip()`: a suffix of `s` that does not start with whitespace,
      everything before it being whitespace. */
  function StripLeft(s: string): (r: string)
    ensures |r| <= |s| && r == s[|s| - |r|..]
    ensures forall i :: 0 <= i < |s| - |r| ==> IsSpace(s[i])
    ensures r == [] || !IsSpace(r[0])
  {
    if s != [] && IsSpace(s[0]) then StripLeft(s[1..]) else s
  }

  /** `s.rstrip()`: a prefix of `s` that does not end with whitespace,
      everything after it being whitespace. */
  function StripRight(s: string): (r: string)
    ensures |r| <= |s| && r == s[..|r|]
    ensures forall i :: |r| <= i < |s| ==> IsSpace(s[i])
    ensures r == [] || !IsSpace(r[|r| - 1])
  {
    if s != [] && IsSpace(s[|s| - 1]) then StripRight(s[..|s| - 1]) else s
  }

  /** `s.strip()` */
  function Strip(s: string): string {
    StripRight(StripLeft(s))
  }

  /** `s.strip() == ""` holds exactly of the strings made only of whitespace. */
  lemma StripEmptyIffBlank(s: string)
    ensures Strip(s) == [] <==> IsBlank(s)
  {
  }

  /** The information separators U+001C-U+001F: `str.isspace` holds of
      them, but `int()` does not skip them. */
  predicate IsSeparator(c: char) {
    0x1C <= c as int <= 0x1F
  }

  predicate HasSeparator(s: string) {
    exists k :: 0 <= k < |s| && IsSeparator(s[k])
  }

  /** A string that has no surrounding whitespace is left alone by `strip`. */
  lemma StripUnpadded(s: string)
    requires s != [] && !IsSpace(s[0]) && !IsSpace(s[|s| - 1])
    ensures Strip(s) == s
  {
  }

  /** Number of leading non-whitespace characters. */
  function WordLength(s: string): (k: nat)
    ensures k <= |s|
    ensures forall i :: 0 <= i < k ==> !IsSpace(s[i])
    ensures k < |s| ==> IsSpace(s[k])
  {
    if s != [] && !IsSpace(s[0]) then 1 + WordLength(s[1..]) else 0
  }

  /** What `str.split()` can return: non-empty runs of non-whitespace. */
  predicate IsWord(w: string) {
    w != [] && forall i :: 0 <= i < |w| ==> !IsSpace(w[i])
  }

  /** `s.split()`: the maximal runs of non-whitespace characters, in order. */
  function Split(s: string): (words: seq<string>)
    ensures forall k :: 0 <= k < |words| ==> IsWord(words[k])
    decreases |s|
  {
    if s == [] then []
    else if IsSpace(s[0]) then Split(s[1..])
    else
      var k := WordLength(s);
      [s[..k]] + Split(s[k..])
  }

  /** `" ".join(words)` */
  function JoinWords(words: seq<string>): string {
    if words == [] then ""
    else if |words| == 1 then words[0]
    else words[0] + " " + JoinWords(words[1..])
  }

  lemma {:induction false} WordLengthOfWord(w: string, t: string)
    requires IsWord(w)
    requires t == [] || IsSpace(t[0])
    ensures WordLength(w + t) == |w|
    decreases |w|
  {
    if |w| > 1 {
      assert (w + t)[1..] == w[1..] + t;
      WordLengthOfWord(w[1..], t);
    } else {
      assert (w + t)[1..] == t;
    }
  }

  /** `str.split()` undoes `" ".join` on words: the round trip the configuration
      prompt relies on when a list is typed as space-separated values. */
  lemma {:induction false} SplitJoinWords(words: seq<string>)
    requires forall k :: 0 <= k < |words| ==> IsWord(words[k])
    ensures Split(JoinWords(words)) == words
    decreases |words|
  {
    if words == [] {
    } else {
      var w := words[0];
      var rest := if |words| == 1 then "" else " " + JoinWords(words[1..]);
      var s := w + rest;
      assert JoinWords(words) == s;
      assert s[0] == w[0];
      WordLengthOfWord(w, rest);
      assert s[..|w|] == w;
      assert s[|w|..] == rest;
      if |words| == 1 {
        assert Split(rest) == [];
      } else {
        assert rest[1..] == JoinWords(words[1..]);
        SplitJoinWords(words[1..]);
        assert words == [w] + words[1..];
      }
    }
  }

  // ---------------------------------------------------------------------------
  // Lower-casing

  function LowerChar(c: char): char {
    if 'A' <= c <= 'Z' then (c as int + 32) as char else c
  }

  /** `s.lower()` on ASCII letters; other characters are kept. */
  function Lower(s: string): (r: string)
    ensures |r| == |s|
    ensures forall i :: 0 <= i < |s| ==> r[i] == LowerChar(s[i])
  {
    seq(|s|, i requires 0 <= i < |s| => LowerChar(s[i]))
  }

  // ---------------------------------------------------------------------------
  // int(str) and str(int)

  predicate IsDigit(c: char) {
    '0' <= c <= '9'
  }

  function DigitValue(c: char): nat
    requires IsDigit(c)
  {
    c as int - '0' as int
  }

  function DigitChar(d: nat): (c: char)
    requires d < 10
    ensures IsDigit(c) && DigitValue(c) == d
  {
    ('0' as int + d) as char
  }

  /** The digit string `int()` accepts after its sign: digits, where single
      underscores may separate two digits (a digit, or a group followed by a
      digit, or a group followed by `_` and a digit). */
  predicate IsDigitGroup(s: string) {
    && |s| > 0
    && IsDigit(s[|s| - 1])
    && (|s| == 1 || IsDigitGroup(s[..|s| - 1]) || (|s| >= 3 && s[|s| - 2] == '_' && IsDigitGroup(s[..|s| - 2])))
  }

  /** Digits joined by single underscores, read position by position: it
      starts and ends with a digit, holds only digits and underscores, and
      never two underscores in a row. */
  ghost predicate DigitsJoinedByUnderscores(s: string) {
    && |s| > 0
    && IsDigit(s[0])
    && IsDigit(s[|s| - 1])
    && (forall i :: 0 <= i < |s| ==> IsDigit(s[i]) || s[i] == '_')
    && (forall i, j :: 0 <= i < j < |s| && j == i + 1 ==> !(s[i] == '_' && s[j] == '_'))
  }

  /** The recursive grammar of a digit group describes exactly the digits
      joined by single underscores. */
  lemma {:induction false} DigitGroupShape(s: string)
    ensures IsDigitGroup(s) ==> DigitsJoinedByUnderscores(s)
    ensures DigitsJoinedByUnderscores(s) ==> IsDigitGroup(s)
    decreases |s|
  {
    if |s| >= 2 {
      var p1 := s[..|s| - 1];
      var p2 := s[..|s| - 2];
      DigitGroupShape(p1);
      DigitGroupShape(p2);
      assert forall i :: 0 <= i < |p1| ==> p1[i] == s[i];
      assert forall i :: 0 <= i < |p2| ==> p2[i] == s[i];
      var n := |s|;
      if DigitsJoinedByUnderscores(s) && s[n - 2] == '_' {
        assert n >= 3 && IsDigit(s[n - 3]);
        assert DigitsJoinedByUnderscores(p2);
      }
    }
  }

  /** Decimal value of a digit group, underscores being ignored. */
  function GroupValue(s: string): nat
    requires IsDigitGroup(s)
  {
    if |s| == 1 then DigitValue(s[0])
    else if IsDigitGroup(s[..|s| - 1]) then 10 * GroupValue(s[..|s| - 1]) + DigitValue(s[|s| - 1])
    else 10 * GroupValue(s[..|s| - 2]) + DigitValue(s[|s| - 1])
  }

  /** `int()` on text without surrounding whitespace: an optional sign and
      a digit group; anything else is a ValueError (`None` here). */
  function ParseSigned(t: string): (r: Option<int>)
    ensures r.Some? ==> |t| > 0 && IsDigit(t[|t| - 1])
  {
    if |t| > 0 && (t[0] == '+' || t[0] == '-') then
      if IsDigitGroup(t[1..]) then
        var v: int := GroupValue(t[1..]);
        Some(if t[0] == '-' then -v else v)
      else None
    else if IsDigitGroup(t) then Some(GroupValue(t))
    else None
  }

  /** `int(s)` in base 10: surrounding whitespace is ignored. `int()` skips
      the whitespace of `str.isspace` except the separators, which it keeps
      and then rejects; so a separator anywhere is a ValueError, and on text
      without one the skipping is `strip`'s. */
  function ParseInt(s: string): (r: Option<int>)
    ensures r.Some? ==> exists k :: 0 <= k < |s| && IsDigit(s[k])
    ensures HasSeparator(s) ==> r.None?
  {
    if HasSeparator(s) then None
    else
      var t := Strip(s);
      var u := StripLeft(s);
      assert t == u[..|t|];
      assert |t| > 0 ==> t[|t| - 1] == s[|s| - |u| + |t| - 1];
      ParseSigned(t)
  }

  /** `int()` accepts exactly an optional sign followed by digits joined by
      single underscores, once surrounding whitespace is stripped, provided
      the text holds no separator. */
  lemma ParseIntAccepts(s: string)
    ensures ParseInt(s).Some? <==>
      var t := Strip(s);
      !HasSeparator(s)
      && (DigitsJoinedByUnderscores(t)
          || (|t| > 0 && (t[0] == '+' || t[0] == '-') && DigitsJoinedByUnderscores(t[1..])))
  {
    var t := Strip(s);
    DigitGroupShape(t);
    if |t| > 0 {
      DigitGroupShape(t[1..]);
    }
  }

  /** A separator is whitespace to `strip` but not to `int()`: `int("\x1c5")`
      is a ValueError although `"\x1c5".strip()` is "5". */
  lemma SeparatorNotSkipped(c: char, s: string)
    requires IsSeparator(c)
    ensures IsSpace(c)
    ensures ParseInt([c] + s).None?
  {
    assert ([c] + s)[0] == c;
  }

  /** `str(n)` for `n >= 0`. */
  function ShowNat(n: nat): (r: string)
    ensures r != [] && forall i :: 0 <= i < |r| ==> IsDigit(r[i])
  {
    if n < 10 then [DigitChar(n)] else ShowNat(n / 10) + [DigitChar(n % 10)]
  }

  /** `str(n)` */
  function ShowInt(n: int): (r: string)
    ensures IsWord(r)
  {
    if n < 0 then "-" + ShowNat(-n) else ShowNat(n)
  }

  /** `str(n)` is a digit group worth `n`. */
  lemma {:induction false} ShowNatIsGroup(n: nat)
    ensures IsDigitGroup(ShowNat(n)) && GroupValue(ShowNat(n)) == n
  {
    if n >= 10 {
      var s := ShowNat(n);
      assert s[..|s| - 1] == ShowNat(n / 10);
      ShowNatIsGroup(n / 10);
    }
  }

  /** `int(str(n)) == n`. */
  lemma ParseShowInt(n: int)
    ensures ParseInt(ShowInt(n)) == Some(n)
  {
    StripUnpadded(ShowInt(n));
    assert !HasSeparator(ShowInt(n));
    ParseSignedShowInt(n);
  }

  lemma ParseSignedShowInt(n: int)
    ensures ParseSigned(ShowInt(n)) == Some(n)
  {
    var s := ShowInt(n);
    if n < 0 {
      assert s[0] == '-' && s[1..] == ShowNat(-n);
      ShowNatIsGroup(-n);
    } else {
      assert IsDigit(s[0]);
      ShowNatIsGroup(n);
    }
  }
}

=== FILE: eda_configure.dfy ===
/** The input handling of eda/configure.py: the per-key `transform_input`
    parsers and the answer loop of `ConfigurationManager.record`, with the
    prompts replaced by a scripted sequence of answers and the YAML file by
    the ordered entries of one `plot` subcommand section. */
module Configure {
  import opened Wrappers
  import opened Builtins

  /** The values a configuration entry can hold; `Null` is YAML's null / Python's None. */
  datatype Value = Null | Bool(b: bool) | Int(i: int) | IntList(items: seq<int>) | Text(s: string)

  /** The keys of a `plot` section: the twelve keys `transform_input` has a
      parser for, and `Other` for any other key name. */
  datatype Key =
    | UseCols | FigureSize | XColumn | YColumn | XLabel | YLabel | XLimit | YLimit
    | SkipHeader | LegendLocation | Title | Model
    | Other(name: string)

  datatype ConfigError =
    | KeyError(key: Key)         // no parser for this key
    | ValueError(input: string)  // `int()` rejected the input
    | TypeError                  // `len()` of an int or a bool
    | UnboundLocalError          // `trans` read before any parse succeeded
    | EndOfInput                 // `input()` reached the end of the answers

  /** One `key: value` line of a subcommand section, in file order. */
  datatype Entry = Entry(key: Key, value: Value)

  /** The key as written in the configuration file. */
  function Name(key: Key): string {
    match key
    case UseCols => "use_cols"
    case FigureSize => "figure_size"
    case XColumn => "xcolumn"
    case YColumn => "ycolumn"
    case XLabel => "xlabel"
    case YLabel => "ylabel"
    case XLimit => "xlimit"
    case YLimit => "ylimit"
    case SkipHeader => "skip_header"
    case LegendLocation => "legend_location"
    case Title => "title"
    case Model => "model"
    case Other(name) => name
  }

  /** The twelve names `transform_input` has a parser for. */
  predicate IsParserName(name: string) {
    name in {"use_cols", "figure_size", "xcolumn", "ycolumn", "xlabel", "ylabel",
             "xlimit", "ylimit", "skip_header", "legend_location", "title", "model"}
  }

  /** A key as read from the configuration file: `Other` only for a name
      without a parser. */
  predicate IsReadKey(key: Key) {
    key.Other? ==> !IsParserName(key.name)
  }

  /** The key a name in the configuration file stands for: every parser name
      reaches its own key, and only the other names become `Other`. */
  function KeyOf(name: string): (key: Key)
    ensures Name(key) == name
    ensures key.Other? <==> !IsParserName(name)
    ensures IsReadKey(key)
  {
    if name == "use_cols" then UseCols
    else if name == "figure_size" then FigureSize
    else if name == "xcolumn" then XColumn
    else if name == "ycolumn" then YColumn
    else if name == "xlabel" then XLabel
    else if name == "ylabel" then YLabel
    else if name == "xlimit" then XLimit
    else if name == "ylimit" then YLimit
    else if name == "skip_header" then SkipHeader
    else if name == "legend_location" then LegendLocation
    else if name == "title" then Title
    else if name == "model" then Model
    else Other(name)
  }

  predicate IsListKey(key: Key) {
    key.UseCols? || key.FigureSize? || key.XLimit? || key.YLimit?
  }

  predicate IsTextKey(key: Key) {
    key.XColumn? || key.YColumn? || key.XLabel? || key.YLabel? || key.LegendLocation? || key.Title?
  }

  predicate HasTransform(key: Key) {
    !key.Other?
  }

  // ---------------------------------------------------------------------------
  // transform_input

  /** `list(map(int, words))`: every word converted, or the first ValueError. */
  function ParseIntList(words: seq<string>): (r: Option<seq<int>>)
    ensures r.Some? ==> |r.value| == |words|
  {
    if forall k :: 0 <= k < |words| ==> ParseInt(words[k]).Some? then
      Some(seq(|words|, k requires 0 <= k < |words| => ParseInt(words[k]).value))
    else None
  }

  /** `v` is of the kind `key`'s parser produces. */
  predicate ParsedType(key: Key, v: Value) {
    if IsListKey(key) then v.IntList?
    else if IsTextKey(key) then v.Text?
    else if key == SkipHeader then v.Int?
    else if key == Model then v.Bool?
    else false
  }

  /** `transform_input[key](x)`: whitespace-separated integers for the list
      keys, an integer for `skip_header`, a flag for `model`, the text itself
      for the text keys, and a KeyError for any other key. */
  function Transform(key: Key, x: string): (r: Result<Value, ConfigError>)
    ensures !HasTransform(key) ==> r == Err(KeyError(key))
    ensures r.Err? ==> r.error == KeyError(key) || r.error == ValueError(x)
    ensures r.Ok? ==> ParsedType(key, r.value)
    ensures key == Model ==> r.Ok?
    ensures IsTextKey(key) ==> r == Ok(Text(x))
  {
    if IsListKey(key) then
      match ParseIntList(Split(x))
      case Some(items) => Ok(IntList(items))
      case None => Err(ValueError(x))
    else if key == SkipHeader then
      match ParseInt(x)
      case Some(n) => Ok(Int(n))
      case None => Err(ValueError(x))
    else if key == Model then
      Ok(Bool(Lower(x) == "true"))
    else if IsTextKey(key) then
      Ok(Text(x))
    else
      Err(KeyError(key))
  }

  /** Typing an integer as `str()` writes it gives that integer back. */
  lemma SkipHeaderRoundTrip(n: int)
    ensures Transform(SkipHeader, ShowInt(n)) == Ok(Int(n))
  {
    ParseShowInt(n);
  }

  /** An answer made only of whitespace is not an integer. */
  lemma SkipHeaderRejectsBlank(x: string)
    requires IsBlank(x)
    ensures Transform(SkipHeader, x) == Err(ValueError(x))
  {
    assert forall k :: 0 <= k < |x| ==> !IsDigit(x[k]);
  }

  /** `model` is true exactly for "true" in any mix of letter cases. */
  lemma ModelFlagIgnoresCase(x: string)
    ensures Transform(Model, x) == Ok(Bool(
      |x| == 4 && (x[0] == 't' || x[0] == 'T') && (x[1] == 'r' || x[1] == 'R')
      && (x[2] == 'u' || x[2] == 'U') && (x[3] == 'e' || x[3] == 'E')))
  {
    if |x| == 4 {
      var l := Lower(x);
      assert l == "true" <==> l[0] == 't' && l[1] == 'r' && l[2] == 'u' && l[3] == 'e';
    }
  }

  /** The decimal rendering of each integer. */
  function ShowAll(items: seq<int>): (words: seq<string>)
    ensures |words| == |items|
    ensures forall k :: 0 <= k < |items| ==> words[k] == ShowInt(items[k])
  {
    seq(|items|, k requires 0 <= k < |items| => ShowInt(items[k]))
  }

  /** Typing a list as its integers separated by spaces gives that list back. */
  lemma ListRoundTrip(key: Key, items: seq<int>)
    requires IsListKey(key)
    ensures Transform(key, JoinWords(ShowAll(items))) == Ok(IntList(items))
  {
    var words := ShowAll(items);
    SplitJoinWords(words);
    ParseShowAll(items);
  }

  /** Converting the words `str()` writes gives the integers back. */
  lemma ParseShowAll(items: seq<int>)
    ensures ParseIntList(ShowAll(items)) == Some(items)
  {
    var words := ShowAll(items);
    forall k | 0 <= k < |items| ensures ParseInt(words[k]) == Some(items[k]) {
      ParseShowInt(items[k]);
    }
    ParseEveryWord(words, items);
  }

  /** Words that each convert to the matching integer convert as a list. */
  lemma ParseEveryWord(words: seq<string>, items: seq<int>)
    requires |words| == |items|
    requires forall k :: 0 <= k < |words| ==> ParseInt(words[k]) == Some(items[k])
    ensures ParseIntList(words) == Some(items)
  {
    assert forall k :: 0 <= k < |words| ==> ParseInt(words[k]).Some?;
    var parsed := ParseIntList(words).value;
    assert forall k :: 0 <= k < |items| ==> parsed[k] == items[k];
    assert parsed == items;
  }

  // ---------------------------------------------------------------------------
  // record

  /** `answer.lower() == "none"`, letter by letter. */
  predicate SaysNone(answer: string) {
    |answer| == 4 && LowerChar(answer[0]) == 'n' && LowerChar(answer[1]) == 'o'
    && LowerChar(answer[2]) == 'n' && LowerChar(answer[3]) == 'e'
  }

  lemma SaysNoneIsLowerNone(answer: string)
    ensures SaysNone(answer) <==> Lower(answer) == "none"
  {
    if |answer| == 4 {
      var l := Lower(answer);
      assert l == "none" <==> l[0] == 'n' && l[1] == 'o' && l[2] == 'n' && l[3] == 'e';
    }
  }

  /** `len(v)` */
  function PyLen(v: Value): (r: Result<nat, ConfigError>)
    ensures r.Ok? <==> v.IntList? || v.Text?
    ensures v.IntList? ==> r == Ok(|v.items|)
    ensures v.Text? ==> r == Ok(|v.s|)
  {
    match v
    case IntList(items) => Ok(|items|)
    case Text(s) => Ok(|s|)
    case _ => Err(TypeError)
  }

  /** What happens to one answer: the key gets a value and the loop moves to
      the next key, the same key is asked again, or an exception escapes. */
  datatype Outcome = Store(v: Value) | AskAgain | Fail(e: ConfigError)

  /** One pass of the `while True` loop of `record` for `key`, whose current
      value is `current`. `trans` is the last successfully transformed answer
      of the whole call, which the loop keeps using after a ValueError. */
  function Decide(key: Key, current: Value, answer: string, trans: Option<Value>): (r: (Outcome, Option<Value>))
    ensures answer == "" ==> r == (Store(current), trans)
    ensures answer != "" && SaysNone(answer) ==> r == (Store(Null), trans)
    ensures answer != "" && !SaysNone(answer) && Transform(key, answer).Ok? ==>
      r.1 == Some(Transform(key, answer).value)
    ensures answer != "" && !SaysNone(answer) && IsListKey(key) && Transform(key, answer).Ok? ==>
      var items := Transform(key, answer).value.items;
      r.0 == (if |items| == 2 then Store(IntList(items)) else AskAgain)
    ensures r.0.Store? ==> r.0.v == current || r.0.v == Null || Some(r.0.v) == r.1
    ensures r.0.Store? && IsListKey(key) ==> r.0.v == current || r.0.v == Null || PyLen(r.0.v) == Ok(2)
    ensures answer != "" && !SaysNone(answer) && !IsListKey(key) && Transform(key, answer).Ok? ==>
      r.0 == Store(Transform(key, answer).value)
    ensures !HasTransform(key) && answer != "" && !SaysNone(answer) ==> r.0 == Fail(KeyError(key))
  {
    if answer == "" then (Store(current), trans)
    else if SaysNone(answer) then (Store(Null), trans)
    else
      var t := Transform(key, answer);
      if t.Err? && !t.error.ValueError? then (Fail(t.error), trans)
      else
        var tr := if t.Ok? then Some(t.value) else trans;
        if tr.None? then (Fail(UnboundLocalError), tr)
        else if IsListKey(key) then
          match PyLen(tr.value)
          case Err(e) => (Fail(e), tr)
          case Ok(n) => if n != 2 then (AskAgain, tr) else (Store(tr.value), tr)
        else (Store(tr.value), tr)
  }

  /** A list key's new value: kept, None, or something of length 2. */
  predicate ListValueAccepted(v: Value, previous: Value) {
    v == previous || v == Null || PyLen(v) == Ok(2)
  }

  /** `record` on the rest of a section, from the rest of the answers: the new
      entries, in order, or the exception that ends the call. The new section
      has the same keys in the same order, each assigned once, and every list
      key holds its previous value, None, or something of length 2. */
  function RecordFrom(section: seq<Entry>, answers: seq<string>, trans: Option<Value>): (r: Result<seq<Entry>, ConfigError>)
    ensures r.Ok? ==> |r.value| == |section|
    ensures r.Ok? ==> forall i :: 0 <= i < |section| ==> r.value[i].key == section[i].key
    ensures r.Ok? ==> forall i :: 0 <= i < |section| && IsListKey(section[i].key) ==>
      ListValueAccepted(r.value[i].value, section[i].value)
    decreases |answers|
  {
    if section == [] then Ok([])
    else if answers == [] then Err(EndOfInput)
    else
      var (outcome, trans') := Decide(section[0].key, section[0].value, answers[0], trans);
      match outcome
      case AskAgain => RecordFrom(section, answers[1..], trans')
      case Fail(e) => Err(e)
      case Store(v) =>
        var rest := RecordFrom(section[1..], answers[1..], trans');
        assert forall i :: 1 <= i < |section| ==> section[i] == section[1..][i - 1];
        Prepend([Entry(section[0].key, v)], rest)
  }

  function Prepend(done: seq<Entry>, r: Result<seq<Entry>, ConfigError>): Result<seq<Entry>, ConfigError> {
    match r
    case Ok(rest) => Ok(done + rest)
    case Err(e) => Err(e)
  }

  /** `ConfigurationManager.record` for one section: ask for every key in
      turn, filling `inputs`, which then replaces the section. The section's
      keys are those `KeyOf` gives for the names in the file. */
  method Record(section: seq<Entry>, answers: seq<string>) returns (r: Result<seq<Entry>, ConfigError>)
    requires forall i :: 0 <= i < |section| ==> IsReadKey(section[i].key)
    ensures r == RecordFrom(section, answers, None)
  {
    var inputs: seq<Entry> := [];
    var pos := 0;
    var trans: Option<Value> := None;
    assert RecordFrom(section, answers, None) == Prepend(inputs, RecordFrom(section[0..], answers[0..], trans)) by {
      assert section[0..] == section && answers[0..] == answers;
      PrependNothing(RecordFrom(section, answers, None));
    }
    for i := 0 to |section|
      invariant pos <= |answers|
      invariant RecordFrom(section, answers, None) == Prepend(inputs, RecordFrom(section[i..], answers[pos..], trans))
    {
      assert section[i..] == [Entry(section[i].key, section[i].value)] + section[i + 1..];
      ghost var done := inputs;
      var entry;
      entry, pos, trans := AskKey(section[i].key, section[i].value, answers, pos, trans, section[i + 1..]);
      if entry.Err? {
        return Err(entry.error);
      }
      inputs := inputs + [entry.value];
      PrependTwice(done, entry.value, RecordFrom(section[i + 1..], answers[pos..], trans));
    }
    assert section[|section|..] == [];
    assert inputs + [] == inputs;
    return Ok(inputs);
  }

  /** The `while True` loop of `record` for one key: answers are read from
      `start` on until one is stored, and `later` stands for the keys that
      follow. */
  method AskKey(key: Key, value: Value, answers: seq<string>, start: nat, trans0: Option<Value>, ghost later: seq<Entry>)
    returns (entry: Result<Entry, ConfigError>, pos: nat, trans: Option<Value>)
    requires start <= |answers|
    ensures start <= pos <= |answers|
    ensures entry.Ok? ==> entry.value.key == key && start < pos
    ensures RecordFrom([Entry(key, value)] + later, answers[start..], trans0) ==
      if entry.Ok? then Prepend([entry.value], RecordFrom(later, answers[pos..], trans)) else Err(entry.error)
  {
    var section := [Entry(key, value)] + later;
    pos, trans := start, trans0;
    while true
      invariant start <= pos <= |answers|
      invariant RecordFrom(section, answers[start..], trans0) == RecordFrom(section, answers[pos..], trans)
      decreases |answers| - pos
    {
      if pos == |answers| {
        assert answers[pos..] == [];
        return Err(EndOfInput), pos, trans;
      }
      ghost var before, pending := trans, answers[pos..];
      assert pending[0] == answers[pos] && pending[1..] == answers[pos + 1..];
      assert section[1..] == later;
      var userInput := answers[pos];
      pos := pos + 1;
      var decided := Decide(key, value, userInput, trans);
      trans := decided.1;
      match decided.0
      case Store(v) =>
        StoreStep(section, pending, before, v, trans);
        return Ok(Entry(key, v)), pos, trans;
      case Fail(e) =>
        FailStep(section, pending, before, e);
        return Err(e), pos, trans;
      case AskAgain =>
        AskAgainStep(section, pending, before, trans);
    }
  }

  /** An answer that ends the call ends the rest of the section too. */
  lemma FailStep(section: seq<Entry>, answers: seq<string>, trans: Option<Value>, e: ConfigError)
    requires section != [] && answers != []
    requires Decide(section[0].key, section[0].value, answers[0], trans).0 == Fail(e)
    ensures RecordFrom(section, answers, trans) == Err(e)
  {
  }

  /** An answer that is asked again is simply consumed. */
  lemma AskAgainStep(section: seq<Entry>, answers: seq<string>, trans: Option<Value>, trans': Option<Value>)
    requires section != [] && answers != []
    requires Decide(section[0].key, section[0].value, answers[0], trans) == (AskAgain, trans')
    ensures RecordFrom(section, answers, trans) == RecordFrom(section, answers[1..], trans')
  {
  }

  /** A text key stores the answer itself, which becomes the last parsed value. */
  lemma TextAnswerStored(key: Key, current: Value, answer: string, trans: Option<Value>)
    requires IsTextKey(key) && answer != "" && !SaysNone(answer)
    ensures Decide(key, current, answer, trans) == (Store(Text(answer)), Some(Text(answer)))
  {
  }

  /** An answer that stores a value moves on to the next key. */
  lemma StoreStep(section: seq<Entry>, answers: seq<string>, trans: Option<Value>, v: Value, trans': Option<Value>)
    requires section != [] && answers != []
    requires Decide(section[0].key, section[0].value, answers[0], trans) == (Store(v), trans')
    ensures RecordFrom(section, answers, trans) ==
      Prepend([Entry(section[0].key, v)], RecordFrom(section[1..], answers[1..], trans'))
  {
  }

  lemma PrependNothing(r: Result<seq<Entry>, ConfigError>)
    ensures Prepend([], r) == r
  {
    if r.Ok? {
      assert [] + r.value == r.value;
    }
  }

  lemma PrependTwice(done: seq<Entry>, e: Entry, r: Result<seq<Entry>, ConfigError>)
    ensures Prepend(done, Prepend([e], r)) == Prepend(done + [e], r)
  {
    if r.Ok? {
      assert done + ([e] + r.value) == (done + [e]) + r.value;
    }
  }

  // ---------------------------------------------------------------------------
  // Finding: a rejected answer stores the previous key's value

  /** As written: once some answer has parsed, an answer `skip_header`
      rejects stores that earlier value instead of asking again. */
  lemma RejectedAnswerStoresStale(skip: Value, stale: Value, answer: string)
    requires answer != "" && !SaysNone(answer) && ParseInt(answer).None?
    ensures RecordFrom([Entry(SkipHeader, skip)], [answer], Some(stale)) == Ok([Entry(SkipHeader, stale)])
  {
    var section, answers := [Entry(SkipHeader, skip)], [answer];
    assert Transform(SkipHeader, answer) == Err(ValueError(answer));
    StoreStep(section, answers, Some(stale), stale, Some(stale));
    assert section[1..] == [] && answers[1..] == [];
    assert [Entry(SkipHeader, stale)] + [] == [Entry(SkipHeader, stale)];
  }

  /** As written: after a `title` answer, an answer `skip_header` cannot
      parse stores the title text under `skip_header` (for instance the
      answers "ab" then "x"), a value `skip_header`'s parser never produces. */
  lemma StaleValueStored(title: Value, skip: Value, first: string, second: string)
    requires first != "" && !SaysNone(first)
    requires second != "" && !SaysNone(second) && ParseInt(second).None?
    ensures RecordFrom([Entry(Title, title), Entry(SkipHeader, skip)], [first, second], None)
         == Ok([Entry(Title, Text(first)), Entry(SkipHeader, Text(first))])
    ensures !Accepted(SkipHeader, Text(first))
  {
    var section := [Entry(Title, title), Entry(SkipHeader, skip)];
    var answers := [first, second];
    var tail := RecordFrom([Entry(SkipHeader, skip)], [second], Some(Text(first)));
    assert tail == Ok([Entry(SkipHeader, Text(first))]) by {
      RejectedAnswerStoresStale(skip, Text(first), second);
    }
    assert RecordFrom(section, answers, None) == Prepend([Entry(Title, Text(first))], tail) by {
      assert section[1..] == [Entry(SkipHeader, skip)] && answers[1..] == [second];
      TextAnswerStored(Title, title, first, None);
      StoreStep(section, answers, None, Text(first), Some(Text(first)));
    }
    assert [Entry(Title, Text(first))] + [Entry(SkipHeader, Text(first))]
        == [Entry(Title, Text(first)), Entry(SkipHeader, Text(first))];
  }

  /** As written: a first answer that cannot be parsed, before any answer
      was, ends the call with UnboundLocalError. */
  lemma UnparsableFirstAnswerFails(skip: Value, answers: seq<string>)
    requires answers != [] && answers[0] != "" && !SaysNone(answers[0]) && ParseInt(answers[0]).None?
    ensures RecordFrom([Entry(SkipHeader, skip)], answers, None) == Err(UnboundLocalError)
  {
    assert Transform(SkipHeader, answers[0]) == Err(ValueError(answers[0]));
    FailStep([Entry(SkipHeader, skip)], answers, None, UnboundLocalError);
  }

  /** Corrected decision: an answer the parser rejects asks the same key
      again, as the "Invalid value" message announces. */
  function DecideFixed(key: Key, current: Value, answer: string): (r: Outcome)
    ensures answer == "" ==> r == Store(current)
    ensures answer != "" && SaysNone(answer) ==> r == Store(Null)
    ensures answer != "" && !SaysNone(answer) && Transform(key, answer).Ok? ==>
      var v := Transform(key, answer).value;
      r == if Accepted(key, v) then Store(v) else AskAgain
    ensures r.Store? ==> r.v == current || r.v == Null || Transform(key, answer) == Ok(r.v)
    ensures r.Store? ==> r.v == current || r.v == Null || Accepted(key, r.v)
    ensures answer != "" && !SaysNone(answer) && Transform(key, answer) == Err(ValueError(answer)) ==> r == AskAgain
    ensures r.Fail? ==> r.e == KeyError(key)
  {
    if answer == "" then Store(current)
    else if SaysNone(answer) then Store(Null)
    else
      match Transform(key, answer)
      case Err(ValueError(_)) => AskAgain
      case Err(e) => Fail(e)
      case Ok(v) => if IsListKey(key) && |v.items| != 2 then AskAgain else Store(v)
  }

  /** A value `record` may store for `key` from an answer: of the kind the
      key's parser produces, and of length 2 for the list keys. */
  predicate Accepted(key: Key, v: Value) {
    ParsedType(key, v) && (IsListKey(key) ==> |v.items| == 2)
  }

  /** `record` with the corrected decision: every key ends up with its
      previous value, None, or an accepted value of its own kind. */
  function RecordFromFixed(section: seq<Entry>, answers: seq<string>): (r: Result<seq<Entry>, ConfigError>)
    ensures r.Ok? ==> |r.value| == |section|
    ensures r.Ok? ==> forall i :: 0 <= i < |section| ==> r.value[i].key == section[i].key
    ensures r.Ok? ==> forall i :: 0 <= i < |section| ==>
      var v := r.value[i].value;
      v == section[i].value || v == Null || Accepted(section[i].key, v)
    decreases |answers|
  {
    if section == [] then Ok([])
    else if answers == [] then Err(EndOfInput)
    else
      match DecideFixed(section[0].key, section[0].value, answers[0])
      case AskAgain => RecordFromFixed(section, answers[1..])
      case Fail(e) => Err(e)
      case Store(v) =>
        var rest := RecordFromFixed(section[1..], answers[1..]);
        assert forall i :: 1 <= i < |section| ==> section[i] == section[1..][i - 1];
        Prepend([Entry(section[0].key, v)], rest)
  }

  /** Where the answer parses, the corrected decision is the original one. */
  lemma DecideFixedAgrees(key: Key, current: Value, answer: string, trans: Option<Value>)
    requires answer == "" || SaysNone(answer) || Transform(key, answer).Ok?
    ensures DecideFixed(key, current, answer) == Decide(key, current, answer, trans).0
  {
  }
}

=== FILE: eda_models.dfy ===
/** The discrete logic of eda/models.py: the model registry, the half-life
    unit lookup, the decision and degrees of freedom of the comparison between
    the first- and second-order exponential models, and the report printed by
    `print_params`. The fitted values, R-squared and the p-value are inputs. */
module Models {
  import opened Wrappers

  /** The three model functions, by their Python names. */
  datatype ModelFunction = FirstOrderExponential | SecondOrderExponential | LinearFunction

  /** Number of parameters each function takes after `x`. */
  function Arity(f: ModelFunction): nat {
    match f
    case FirstOrderExponential => 2   // a, k
    case SecondOrderExponential => 4  // a1, a2, k1, k2
    case LinearFunction => 2          // a, b
  }

  datatype ModelInfo = ModelInfo(func: ModelFunction, equation: string, params: seq<string>)

  datatype ModelError =
    | KeyError(key: string)  // a dictionary lookup with an unknown key
    | IndexError             // `popt[i]` or `errors[i]` past the end

  const Registry: map<string, ModelInfo> := map[
    "exp1" := ModelInfo(FirstOrderExponential, "y = a * exp(k * x)", ["a", "k"]),
    "exp2" := ModelInfo(SecondOrderExponential, "y = a1 * exp(k1 * x) + a2 * exp(k2 * x)", ["a1", "a2", "k1", "k2"]),
    "linear" := ModelInfo(LinearFunction, "y = a * x + b", ["a", "b"])
  ]

  /** `get_model_info`: the registry entry, or a KeyError for any other name.
      Each entry names exactly as many parameters as its function takes. */
  function GetModelInfo(name: string): (r: Result<ModelInfo, ModelError>)
    ensures r.Ok? <==> name == "exp1" || name == "exp2" || name == "linear"
    ensures r.Err? ==> r.error == KeyError(name)
    ensures r.Ok? ==> |r.value.params| == Arity(r.value.func)
  {
    if name in Registry then Ok(Registry[name]) else Err(KeyError(name))
  }

  const InitialParamsFirstOrderDecay: seq<int> := [-1, -1]
  const InitialParamsSecondOrderDecay: seq<int> := [0, 0, 0, 0]

  /** The default starting vectors fit the functions they are used with. */
  lemma InitialParamsMatchModels()
    ensures |InitialParamsFirstOrderDecay| == Arity(GetModelInfo("exp1").value.func)
    ensures |InitialParamsSecondOrderDecay| == Arity(GetModelInfo("exp2").value.func)
  {
  }

  // ---------------------------------------------------------------------------
  // get_t_half

  /** `np.log(2)`: the binary64 value closest to ln 2, as an exact real. */
  const Ln2: real := 0.693147180559945286226763982995180413126945495605468750

  function Abs(x: real): real {
    if x < 0.0 then -x else x
  }

  /** A half-life in seconds; dividing by a zero rate gives numpy's `inf`. */
  datatype Seconds = Finite(value: real) | Infinite

  /** The `multi` table of `get_t_half`. */
  function UnitMultiplier(unit: string): (r: Result<real, ModelError>)
    ensures r.Ok? <==> unit == "minutes" || unit == "seconds"
    ensures r.Err? ==> r.error == KeyError(unit)
    ensures r.Ok? ==> r.value > 0.0
  {
    var multi := map["minutes" := 60.0, "seconds" := 1.0];
    if unit in multi then Ok(multi[unit]) else Err(KeyError(unit))
  }

  /** `get_t_half`: `ln 2 / |k|`, converted to seconds. */
  function THalf(k: real, unit: string): (r: Result<Seconds, ModelError>)
    ensures r.Ok? <==> unit == "minutes" || unit == "seconds"
    ensures r.Ok? ==> (r.value.Infinite? <==> k == 0.0)
    ensures r.Ok? && r.value.Finite? ==> r.value.value > 0.0
  {
    match UnitMultiplier(unit)
    case Err(e) => Err(e)
    case Ok(multi) => Ok(if k == 0.0 then Infinite else Finite(Ln2 / Abs(k) * multi))
  }

  /** Data timed in minutes give half-lives sixty times those of the same
      rate timed in seconds. */
  lemma THalfMinutesAreSixtySeconds(k: real)
    ensures THalf(k, "seconds").Ok? && THalf(k, "minutes").Ok?
    ensures THalf(k, "minutes").value ==
      match THalf(k, "seconds").value
      case Finite(t) => Finite(60.0 * t)
      case Infinite => Infinite
  {
  }

  /** Only the magnitude of the rate matters. */
  lemma THalfIgnoresSign(k: real, unit: string)
    ensures THalf(k, unit) == THalf(-k, unit)
  {
  }

  /** Faster rates give shorter half-lives. */
  lemma THalfDecreasesWithRate(k1: real, k2: real, unit: string)
    requires 0.0 < Abs(k1) < Abs(k2)
    requires unit == "minutes" || unit == "seconds"
    ensures THalf(k2, unit).value.value < THalf(k1, unit).value.value
  {
    var m := UnitMultiplier(unit).value;
    var a, b := Abs(k1), Abs(k2);
    assert Ln2 / b < Ln2 / a by {
      assert Ln2 / b * b == Ln2 && Ln2 / a * a == Ln2;
      assert Ln2 / b * a < Ln2;
    }
  }

  /** The rate's magnitude can be recovered from the half-life: the
      calculation loses nothing but the sign. */
  lemma RateFromHalfLife(k: real, unit: string)
    requires unit == "minutes" || unit == "seconds"
    requires k != 0.0
    ensures Abs(k) == Ln2 * UnitMultiplier(unit).value / THalf(k, unit).value.value
  {
    var m := UnitMultiplier(unit).value;
    var t := THalf(k, unit).value.value;
    assert t == Ln2 / Abs(k) * m;
    assert t * Abs(k) == Ln2 * m;
  }

  /** A rate of -0.3 per minute: the half-life is 200 ln 2, about 138.6 s. */
  lemma THalfWorkedExample()
    ensures THalf(-0.3, "minutes") == Ok(Finite(200.0 * Ln2))
    ensures 138.62 < 200.0 * Ln2 < 138.63
  {
  }

  // ---------------------------------------------------------------------------
  // compare_exponential_models

  /** The p-value `1 - stats.f.cdf(...)`, which is NaN when the variance ratio is. */
  datatype PValue = Probability(p: real) | NaN

  /** The choice between the two fits, with the label the function returns. */
  datatype Selection<R> = Selection(name: string, result: R)

  /** The decision rule: the second-order fit is kept only when the p-value
      is strictly below 0.05; at 0.05, above it, or for NaN, the first-order
      fit is returned. */
  function SelectModel<R>(pValue: PValue, first: R, second: R): (s: Selection<R>)
    ensures s.name == "second_exp" <==> pValue.Probability? && pValue.p < 0.05
    ensures s.name == "second_exp" ==> s.result == second
    ensures s.name != "second_exp" ==> s == Selection("first_exp", first)
  {
    if pValue.Probability? && pValue.p < 0.05 then Selection("second_exp", second)
    else Selection("first_exp", first)
  }

  /** The labels returned are not registry names: passing one on as the model
      name for `get_model_info` or `print_params` fails with a KeyError. */
  lemma SelectionLabelIsNotRegistered<R>(pValue: PValue, first: R, second: R)
    ensures GetModelInfo(SelectModel(pValue, first, second).name) ==
            Err(KeyError(SelectModel(pValue, first, second).name))
  {
  }

  /** The one-way analysis of variance of one fit: degrees of freedom of the
      total, regression and residual mean squares. */
  datatype AnovaDegrees = AnovaDegrees(total: int, regression: int, residual: int)

  /** Degrees of freedom for `n` observations and a fit with `nParams` parameters:
      `len(y) - 1`, `len(popt) - 1` and `len(y) - len(popt)`. */
  function Anova(n: nat, nParams: nat): (d: AnovaDegrees)
    ensures d.regression + d.residual == d.total
    ensures d.residual > 0 <==> n > nParams
    ensures d.total >= 0 <==> n > 0
  {
    AnovaDegrees(n - 1, nParams - 1, n - nParams)
  }

  /** The F distribution's degrees of freedom used for the p-value: those of the
      second-order fit's regression and residual mean squares. `popt2` has as
      many entries as its starting vector. */
  function FTestDegrees(n: nat): (df: (int, int))
    ensures df.0 == 3
    ensures df.1 == n - 4
    ensures df.1 > 0 <==> n > |GetModelInfo("exp2").value.params|
  {
    var d := Anova(n, |InitialParamsSecondOrderDecay|);
    (d.regression, d.residual)
  }

  /** As written, the numerator counts every parameter of the second-order
      model but one, not the parameters it adds to the first-order model. */
  lemma FTestNumeratorOverstated(n: nat)
    ensures FTestDegrees(n).0 != |GetModelInfo("exp2").value.params| - |GetModelInfo("exp1").value.params|
  {
  }

  /** Corrected degrees of freedom for the nested-model F test: the numerator
      is the number of parameters the second-order model adds. */
  function NestedFTestDegrees(n: nat): (df: (int, int))
    ensures df.0 + |GetModelInfo("exp1").value.params| == |GetModelInfo("exp2").value.params|
    ensures df.0 > 0
    ensures df.1 == FTestDegrees(n).1
  {
    var p1 := |Registry["exp1"].params|;
    var p2 := |Registry["exp2"].params|;
    (p2 - p1, n - p2)
  }

  // ---------------------------------------------------------------------------
  // print_params

  /** The lines `print_params` prints, with numbers left unformatted. */
  datatype ReportLine =
    | LabelLine(text: string)
    | EquationLine(equation: string)
    | Rule                                            // 30 dashes
    | ColumnHeader                                    // Parameter, Value, Std Err
    | ParamRow(name: string, value: real, stdErr: real)
    | RSquareLine(rsq: real)
    | HalfLifeLine(caption: string, halfLife: Seconds)

  /** What was printed, and the exception that stopped the printing, if any. */
  datatype Report = Report(lines: seq<ReportLine>, failure: Option<ModelError>)

  function Preamble(title: string, equation: string): seq<ReportLine> {
    [LabelLine(title), EquationLine(equation), Rule, ColumnHeader, Rule]
  }

  /** The first `count` parameter rows. */
  function ParamRows(params: seq<string>, popt: seq<real>, errors: seq<real>, count: nat): (rows: seq<ReportLine>)
    requires count <= |params| && count <= |popt| && count <= |errors|
    ensures |rows| == count
    ensures forall i :: 0 <= i < count ==> rows[i] == ParamRow(params[i], popt[i], errors[i])
  {
    seq(count, i requires 0 <= i < count => ParamRow(params[i], popt[i], errors[i]))
  }

  /** The positions of `popt` that `print_params` turns into half-lives. */
  function HalfLifeIndices(name: string): (idx: seq<nat>)
    ensures name in Registry ==> forall j :: 0 <= j < |idx| ==> idx[j] < |Registry[name].params|
    ensures forall j, j' :: 0 <= j < j' < |idx| ==> idx[j] < idx[j']
  {
    if name == "exp1" then [1]
    else if name == "exp2" then [2, 3]
    else []
  }

  predicate IsRateName(param: string) {
    |param| > 0 && param[0] == 'k'
  }

  /** Half-lives are computed from exactly the rate constants of the model:
      `k` for exp1, `k1` and `k2` for exp2, none for the linear model. */
  lemma HalfLivesComeFromRates(name: string, i: nat)
    requires name in Registry && i < |Registry[name].params|
    ensures i in HalfLifeIndices(name) <==> IsRateName(Registry[name].params[i])
  {
  }

  /** The half-life lines: `t1 (sec)`, then `t2 (sec)`, from the rate
      positions in order, with the default unit (minutes). */
  function HalfLifeLines(name: string, popt: seq<real>): (lines: seq<ReportLine>)
    requires forall j :: 0 <= j < |HalfLifeIndices(name)| ==> HalfLifeIndices(name)[j] < |popt|
    ensures |lines| == |HalfLifeIndices(name)| <= 2
    ensures forall j :: 0 <= j < |lines| ==>
      lines[j].HalfLifeLine? && lines[j].caption == (if j == 0 then "t1 (sec)" else "t2 (sec)")
    ensures name in Registry ==> forall j :: 0 <= j < |lines| ==> FromRate(name, popt, lines[j].halfLife)
    ensures forall j :: 0 <= j < |lines| ==>
      lines[j].halfLife == THalf(popt[HalfLifeIndices(name)[j]], "minutes").value
  {
    var idx := HalfLifeIndices(name);
    var lines := seq(|idx|, j requires 0 <= j < |idx| =>
      HalfLifeLine(if j == 0 then "t1 (sec)" else "t2 (sec)", THalf(popt[idx[j]], "minutes").value));
    assert name in Registry ==> forall j :: 0 <= j < |lines| ==> FromRate(name, popt, lines[j].halfLife) by {
      if name in Registry {
        forall j | 0 <= j < |lines| ensures FromRate(name, popt, lines[j].halfLife) {
          var i := idx[j];
          assert i in idx;
          HalfLivesComeFromRates(name, i);
          assert lines[j].halfLife == THalf(popt[i], "minutes").value;
        }
      }
    }
    lines
  }

  /** `t` is the half-life, in the default unit, of a rate constant of the
      registered model `name`. */
  ghost predicate FromRate(name: string, popt: seq<real>, t: Seconds)
    requires name in Registry
  {
    exists i :: 0 <= i < |Registry[name].params| && i < |popt| && IsRateName(Registry[name].params[i])
      && t == THalf(popt[i], "minutes").value
  }

  /** `print_params`. An unknown model name fails before anything is printed;
      a `popt` or `errors` shorter than the parameter list fails at the first
      missing row, after printing the rows before it. */
  method PrintParams(title: string, name: string, popt: seq<real>, errors: seq<real>, rsq: real)
    returns (report: Report)
    ensures name !in Registry ==> report == Report([], Some(KeyError(name)))
    ensures name in Registry && |popt| >= |Registry[name].params| && |errors| >= |Registry[name].params| ==>
      report == Report(
        Preamble(title, Registry[name].equation)
        + ParamRows(Registry[name].params, popt, errors, |Registry[name].params|)
        + [RSquareLine(rsq)]
        + HalfLifeLines(name, popt),
        None)
    ensures name in Registry && (|popt| < |Registry[name].params| || |errors| < |Registry[name].params|) ==>
      var printed := if |popt| < |errors| then |popt| else |errors|;
      report == Report(
        Preamble(title, Registry[name].equation) + ParamRows(Registry[name].params, popt, errors, printed),
        Some(IndexError))
  {
    var info := GetModelInfo(name);
    if info.Err? {
      return Report([], Some(info.error));
    }
    var params := info.value.params;
    var lines := Preamble(title, info.value.equation);
    for i := 0 to |params|
      invariant i <= |popt| && i <= |errors|
      invariant lines == Preamble(title, info.value.equation) + ParamRows(params, popt, errors, i)
    {
      if i >= |popt| || i >= |errors| {
        return Report(lines, Some(IndexError));
      }
      lines := lines + [ParamRow(params[i], popt[i], errors[i])];
    }
    lines := lines + [RSquareLine(rsq)];
    if name == "exp1" {
      var t := THalf(popt[1], "minutes").value;
      lines := lines + [HalfLifeLine("t1 (sec)", t)];
    }
    if name == "exp2" {
      var t1 := THalf(popt[2], "minutes").value;
      var t2 := THalf(popt[3], "minutes").value;
      lines := lines + [HalfLifeLine("t1 (sec)", t1)];
      lines := lines + [HalfLifeLine("t2 (sec)", t2)];
    }
    return Report(lines, None);
  }
}

=== FILE: eda_utils.dfy ===
/** Line-separator handling and line scans of eda/utils.py, over in-memory data:
    a file read in binary mode is its sequence of bytes, a file iterated in
    text mode is its sequence of lines. */
module EdaUtils {
  import opened Wrappers
  import opened Builtins

  const CR: byte := 13
  const LF: byte := 10

  /** The four separators `get_linesep` can report. */
  datatype Linesep = CrCrLf | CrLf | Cr | Lf {
    /** The bytes that make up the separator. */
    function Encoded(): Bytes {
      match this
      case CrCrLf => [CR, CR, LF]
      case CrLf => [CR, LF]
      case Cr => [CR]
      case Lf => [LF]
    }

    /** The string `get_linesep` returns for it. */
    function Text(): string {
      match this
      case CrCrLf => "\r\r\n"
      case CrLf => "\r\n"
      case Cr => "\r"
      case Lf => "\n"
    }
  }

  /** The returned string spells the separator's bytes, character for byte. */
  lemma TextSpellsEncoded(sep: Linesep)
    ensures |sep.Text()| == |sep.Encoded()|
    ensures forall i :: 0 <= i < |sep.Text()| ==> sep.Text()[i] as int == sep.Encoded()[i] as int
  {
  }

  /** The ValueError "Could not identify line separator". */
  datatype LinesepError = UnidentifiedLinesep

  // ---------------------------------------------------------------------------
  // Binary-mode reading

  /** The position just past the first LF at or after `i`, or the end of
      `data` when there is none. */
  function LineEnd(data: Bytes, i: nat): (n: nat)
    requires i <= |data|
    ensures i <= n <= |data|
    ensures i < |data| ==> i < n
    ensures forall j :: i <= j < n - 1 ==> data[j] != LF
    ensures n == |data| || data[n - 1] == LF
    decreases |data| - i
  {
    if i == |data| then i
    else if data[i] == LF then i + 1
    else LineEnd(data, i + 1)
  }

  /** `readline()` on a binary stream positioned at the start of `data`: the bytes
      up to and including the first LF, or all of `data` when it has none. */
  function ReadLine(data: Bytes): (line: Bytes)
    ensures |line| <= |data| && line == data[..|line|]
    ensures data != [] ==> line != []
    ensures forall i :: 0 <= i < |line| - 1 ==> line[i] != LF
    ensures line == data || EndsWith(line, [LF])
  {
    var n := LineEnd(data, 0);
    assert n < |data| ==> data[..n][n - 1..] == [LF];
    data[..n]
  }

  /** The scan stops at the first LF. */
  lemma {:induction false} LineEndAtFirstLF(data: Bytes, i: nat, n: nat)
    requires i < n <= |data| && data[n - 1] == LF
    requires forall j :: i <= j < n - 1 ==> data[j] != LF
    ensures LineEnd(data, i) == n
    decreases n - i
  {
    if data[i] != LF {
      LineEndAtFirstLF(data, i + 1, n);
    }
  }

  function Concat(lines: seq<Bytes>): Bytes {
    if lines == [] then [] else lines[0] + Concat(lines[1..])
  }

  /** `lines` cut `s` into non-empty lines, each but the last ending with LF,
      and none holding an LF before its end: the cuts are exactly after each LF. */
  predicate LinesOf(lines: seq<Bytes>, s: Bytes) {
    && Concat(lines) == s
    && (forall k :: 0 <= k < |lines| ==> lines[k] != [])
    && (forall k :: 0 <= k < |lines| - 1 ==> EndsWith(lines[k], [LF]))
    && (forall k, j :: 0 <= k < |lines| && 0 <= j < |lines[k]| - 1 ==> lines[k][j] != LF)
  }

  /** The lines of `data` from position `i` on: each runs up to and
      including the next LF, the last one possibly without. */
  function LinesFrom(data: Bytes, i: nat): (lines: seq<Bytes>)
    requires i <= |data|
    ensures LinesOf(lines, data[i..])
    decreases |data| - i
  {
    if i == |data| then []
    else
      var rest := LinesFrom(data, LineEnd(data, i));
      LinesStep(data, i, rest);
      [data[i..LineEnd(data, i)]] + rest
  }

  lemma LinesStep(data: Bytes, i: nat, rest: seq<Bytes>)
    requires i < |data| && LinesOf(rest, data[LineEnd(data, i)..])
    ensures LinesOf([data[i..LineEnd(data, i)]] + rest, data[i..])
  {
    var n := LineEnd(data, i);
    var line := data[i..n];
    var lines := [line] + rest;
    ConcatCons(line, rest);
    assert data[i..] == line + data[n..];
    if rest != [] {
      assert line[|line| - 1..] == [LF];
    }
    assert forall j :: 0 <= j < |line| - 1 ==> line[j] == data[i + j];
    assert forall k :: 1 <= k < |lines| ==> lines[k] == rest[k - 1];
  }

  lemma ConcatCons(line: Bytes, rest: seq<Bytes>)
    ensures Concat([line] + rest) == line + Concat(rest)
  {
    assert ([line] + rest)[1..] == rest;
  }

  /** `readlines()` on a binary stream holding `data`: successive `readline()`
      results until the data is exhausted. Joined back together they give the
      data; every line but the last ends with LF; the first is `readline()`'s. */
  function ReadLines(data: Bytes): (lines: seq<Bytes>)
    ensures LinesOf(lines, data)
    ensures data != [] ==> lines != [] && lines[0] == ReadLine(data)
  {
    assert data[0..] == data;
    LinesFrom(data, 0)
  }

  // ---------------------------------------------------------------------------
  // get_linesep

  /** The suffix tests of `get_linesep`, applied to one line, longest first. */
  function ClassifyLine(line: Bytes): (r: Result<Linesep, LinesepError>)
    ensures r.Ok? <==> line != [] && (line[|line| - 1] == CR || line[|line| - 1] == LF)
    ensures r.Ok? ==> EndsWith(line, r.value.Encoded())
  {
    SuffixTest(line, [CR, CR, LF]);
    SuffixTest(line, [CR, LF]);
    SuffixTest(line, [CR]);
    SuffixTest(line, [LF]);
    EndsWithByte(line, CR);
    EndsWithByte(line, LF);
    if SliceFrom(line, -3) == [CR, CR, LF] then Ok(CrCrLf)
    else if SliceFrom(line, -2) == [CR, LF] then Ok(CrLf)
    else if SliceFrom(line, -1) == [CR] then Ok(Cr)
    else if SliceFrom(line, -1) == [LF] then Ok(Lf)
    else Err(UnidentifiedLinesep)
  }

  /** Comparing the slice `line[-n:]` with an `n`-byte string is a suffix test. */
  lemma SuffixTest(line: Bytes, x: Bytes)
    requires |x| > 0
    ensures SliceFrom(line, -|x|) == x <==> EndsWith(line, x)
  {
    SliceFromLast(line, |x|);
  }

  lemma EndsWithByte(line: Bytes, b: byte)
    ensures EndsWith(line, [b]) <==> line != [] && line[|line| - 1] == b
  {
    if line != [] && line[|line| - 1] == b {
      assert line[|line| - 1..] == [b];
    }
  }

  /** Which separator is reported, in terms of the suffixes of the line: the
      tests run longest first, so the answer is the longest separator the line
      ends with. */
  lemma ClassifyLongestFirst(line: Bytes)
    ensures ClassifyLine(line) == Ok(CrCrLf) <==> EndsWith(line, [CR, CR, LF])
    ensures ClassifyLine(line) == Ok(CrLf) <==> EndsWith(line, [CR, LF]) && !EndsWith(line, [CR, CR, LF])
    ensures ClassifyLine(line) == Ok(Cr) <==> EndsWith(line, [CR])
    ensures ClassifyLine(line) == Ok(Lf) <==> EndsWith(line, [LF]) && !EndsWith(line, [CR, LF])
  {
    SuffixTest(line, [CR, CR, LF]);
    SuffixTest(line, [CR, LF]);
    SuffixTest(line, [CR]);
    SuffixTest(line, [LF]);
    SuffixChain(line);
  }

  /** Of the separators the line ends with, the one reported is the longest. */
  lemma ClassifyPicksLongest(line: Bytes, sep: Linesep)
    requires EndsWith(line, sep.Encoded())
    ensures ClassifyLine(line).Ok? && |sep.Encoded()| <= |ClassifyLine(line).value.Encoded()|
  {
    ClassifyLongestFirst(line);
    SuffixChain(line);
  }

  /** The separators nest: CR CR LF ends with CR LF, which ends with LF, and
      a line ending with CR does not end with LF. */
  lemma SuffixChain(line: Bytes)
    ensures EndsWith(line, [CR, CR, LF]) ==> EndsWith(line, [CR, LF])
    ensures EndsWith(line, [CR, LF]) ==> EndsWith(line, [LF])
    ensures EndsWith(line, [CR]) ==> !EndsWith(line, [LF])
  {
    var n := |line|;
    if EndsWith(line, [CR, CR, LF]) {
      assert line[n - 2..] == line[n - 3..][1..];
    }
    if EndsWith(line, [CR, LF]) {
      assert line[n - 1..] == line[n - 2..][1..];
    }
    EndsWithByte(line, CR);
    EndsWithByte(line, LF);
  }

  /** `get_linesep`: classify the first line of the file. */
  function GetLinesep(data: Bytes): (r: Result<Linesep, LinesepError>)
    ensures r.Ok? ==> EndsWith(ReadLine(data), r.value.Encoded())
  {
    ClassifyLine(ReadLine(data))
  }

  /** A first line ending in CR CR LF is reported as that separator, not as CR LF. */
  lemma CrCrLfBeatsCrLf(content: Bytes)
    requires LF !in content
    ensures GetLinesep(content + [CR, CR, LF]) == Ok(CrCrLf)
  {
    var line := content + [CR, CR, LF];
    assert line[|line| - 3..] == [CR, CR, LF];
    forall i | 0 <= i < |line| - 1 ensures line[i] != LF {
      if i < |content| {
        assert line[i] == content[i];
      }
    }
    ReadLineStopsAtFirstLF(line, []);
    assert line + [] == line;
    ClassifyLongestFirst(line);
  }

  /** An empty file has no first line to classify. */
  lemma EmptyFileUnidentified()
    ensures GetLinesep([]) == Err(UnidentifiedLinesep)
  {
  }

  lemma ReadLineStopsAtFirstLF(first: Bytes, rest: Bytes)
    requires first != [] && first[|first| - 1] == LF
    requires forall i :: 0 <= i < |first| - 1 ==> first[i] != LF
    ensures ReadLine(first + rest) == first
  {
    var data := first + rest;
    LineEndAtFirstLF(data, 0, |first|);
    assert data[..|first|] == first;
  }

  lemma ReadLineTerminated(data: Bytes)
    requires LF in data
    ensures EndsWith(ReadLine(data), [LF])
  {
    var n := LineEnd(data, 0);
    var k :| 0 <= k < |data| && data[k] == LF;
    assert data[n - 1] == LF;
    assert data[..n][n - 1..] == [LF];
  }

  /** Once the data holds an LF, `readline` stops at the first one. */
  lemma ReadLineIgnoresRest(data: Bytes, rest: Bytes)
    requires LF in data
    ensures ReadLine(data + rest) == ReadLine(data)
  {
    var line := ReadLine(data);
    ReadLineTerminated(data);
    EndsWithByte(line, LF);
    var tail := data[|line|..] + rest;
    assert data + rest == line + tail by {
      assert data == line + data[|line|..];
    }
    ReadLineStopsAtFirstLF(line, tail);
  }

  /** Only the first line is examined: once the data holds an LF, appending
      anything after it leaves the answer unchanged. */
  lemma LaterLinesIgnored(data: Bytes, rest: Bytes)
    requires LF in data
    ensures GetLinesep(data + rest) == GetLinesep(data)
  {
    ReadLineIgnoresRest(data, rest);
  }

  // ---------------------------------------------------------------------------
  // format_newlines

  /** One line of `format_newlines`: `line[:-len_linesep] + linesep`. */
  function RewriteLine(line: Bytes, lenLinesep: int, linesep: Bytes): (r: Bytes)
    ensures EndsWith(r, linesep)
    ensures lenLinesep > 0 ==>
      r[..|r| - |linesep|] == line[..if lenLinesep <= |line| then |line| - lenLinesep else 0]
    ensures lenLinesep > 0 && |line| <= lenLinesep ==> r == linesep
    ensures lenLinesep == 0 ==> r == linesep
  {
    SliceTo(line, -lenLinesep) + linesep
  }

  /** `format_newlines`: every line read from the input file is rewritten
      with `RewriteLine` and written out, in order; `written` holds the
      successive `write` calls, whose concatenation is the output file. */
  method FormatNewlines(lines: seq<Bytes>, lenLinesep: int, linesep: Bytes) returns (written: seq<Bytes>)
    ensures |written| == |lines|
    ensures forall i :: 0 <= i < |lines| ==> written[i] == RewriteLine(lines[i], lenLinesep, linesep)
  {
    written := [];
    for i := 0 to |lines|
      invariant |written| == i
      invariant forall k :: 0 <= k < i ==> written[k] == RewriteLine(lines[k], lenLinesep, linesep)
    {
      var line := SliceTo(lines[i], -lenLinesep) + linesep;
      written := written + [line];
    }
  }

  /** A line terminated by the separator that was detected loses exactly that
      terminator and gains the platform separator: the content is kept. */
  lemma RewriteReplacesTerminator(content: Bytes, sep: Linesep, linesep: Bytes)
    ensures RewriteLine(content + sep.Encoded(), |sep.Encoded()|, linesep) == content + linesep
  {
    var line := content + sep.Encoded();
    assert line[..|line| - |sep.Encoded()|] == content;
  }

  // ---------------------------------------------------------------------------
  // Finding: an unterminated last line loses its own last bytes

  /** As written: the last line of "1\n2" has no LF, yet `format_newlines`
      still strips one byte from it, so the data byte '2' is dropped. */
  lemma UnterminatedLastLineLosesData()
    ensures GetLinesep([0x31, LF, 0x32]) == Ok(Lf)
    ensures ReadLines([0x31, LF, 0x32]) == [[0x31, LF], [0x32]]
    ensures RewriteLine([0x32], |Lf.Encoded()|, [LF]) == [LF]
  {
    var data: Bytes := [0x31, LF, 0x32];
    ReadLineStopsAtFirstLF([0x31, LF], [0x32]);
    assert data == [0x31, LF] + [0x32];
    assert LineEnd(data, 0) == 2 && LineEnd(data, 2) == 3;
    assert LinesFrom(data, 3) == [];
    assert data[2..3] == [0x32];
    assert LinesFrom(data, 2) == [[0x32]];
    assert data[0..2] == [0x31, LF];
  }

  /** Corrected rewrite: strip the separator only when the line ends with it. */
  function RewriteLineFixed(line: Bytes, sep: Linesep, linesep: Bytes): (r: Bytes)
    ensures EndsWith(r, linesep)
    ensures r[..|r| - |linesep|] + (if EndsWith(line, sep.Encoded()) then sep.Encoded() else []) == line
  {
    if EndsWith(line, sep.Encoded()) then
      var r := line[..|line| - |sep.Encoded()|] + linesep;
      assert r[..|r| - |linesep|] == line[..|line| - |sep.Encoded()|];
      r
    else
      var r := line + linesep;
      assert r[..|r| - |linesep|] == line;
      r
  }

  /** The corrected rewrite agrees with the original on every terminated line. */
  lemma RewriteLineFixedAgrees(line: Bytes, sep: Linesep, linesep: Bytes)
    requires EndsWith(line, sep.Encoded())
    ensures RewriteLineFixed(line, sep, linesep) == RewriteLine(line, |sep.Encoded()|, linesep)
  {
  }

  // ---------------------------------------------------------------------------
  // Line scans over a file iterated in text mode

  /** `get_number_lines`: count the lines. */
  method GetNumberLines(lines: seq<string>) returns (n: nat)
    ensures n == |lines|
  {
    n := 0;
    for i := 0 to |lines|
      invariant n == i
    {
      n := n + 1;
    }
  }

  /** `get_end_of_data`: the 1-based index of the first whitespace-only line,
      or the number of lines when there is none. */
  method GetEndOfData(lines: seq<string>) returns (endOfData: nat)
    ensures endOfData <= |lines|
    ensures lines != [] ==> endOfData >= 1
    ensures forall k :: 0 <= k < endOfData - 1 ==> !IsBlank(lines[k])
    ensures endOfData < |lines| ==> IsBlank(lines[endOfData - 1])
  {
    endOfData := 0;
    var i := 0;
    while i < |lines|
      invariant 0 <= i <= |lines| && endOfData == i
      invariant forall k :: 0 <= k < i ==> !IsBlank(lines[k])
    {
      endOfData := endOfData + 1;
      StripEmptyIffBlank(lines[i]);
      if Strip(lines[i]) == [] {
        break;
      }
      i := i + 1;
    }
  }
}

=== FILE: photochemistry_utils.dfy ===
/** `linuxize_newlines` of photochemistry/utils.py over in-memory lines: the
    lines `readlines()` returns for the input file, and the successive chunks
    written to the output file. */
module Photochemistry {
  import opened Builtins
  import EdaUtils

  /** One output line: the input line with its last three bytes cut off
      (`line[:-3]`), followed by the platform separator. */
  function Linuxized(line: Bytes, linesep: Bytes): (r: Bytes)
    ensures EndsWith(r, linesep)
    ensures |line| <= 3 ==> r == linesep
    ensures |line| > 3 ==> r[..|r| - |linesep|] == line[..|line| - 3]
  {
    SliceTo(line, -3) + linesep
  }

  /** `linuxize_newlines`: every input line is rewritten and written out, in order. */
  method LinuxizeNewlines(lines: seq<Bytes>, linesep: Bytes) returns (written: seq<Bytes>)
    ensures |written| == |lines|
    ensures forall i :: 0 <= i < |lines| ==> written[i] == Linuxized(lines[i], linesep)
  {
    written := [];
    for i := 0 to |lines|
      invariant |written| == i
      invariant forall k :: 0 <= k < i ==> written[k] == Linuxized(lines[k], linesep)
    {
      var line := SliceTo(lines[i], -3) + linesep;
      written := written + [line];
    }
  }

  /** The rewrite is `format_newlines` with a separator length fixed at 3. */
  lemma LinuxizedIsFormatWithThree(line: Bytes, linesep: Bytes)
    ensures Linuxized(line, linesep) == EdaUtils.RewriteLine(line, 3, linesep)
  {
  }

  /** A line ending in CR CR LF keeps its content exactly. */
  lemma LinuxizedCrCrLf(content: Bytes, linesep: Bytes)
    ensures Linuxized(content + EdaUtils.Linesep.CrCrLf.Encoded(), linesep) == content + linesep
  {
    EdaUtils.RewriteReplacesTerminator(content, EdaUtils.Linesep.CrCrLf, linesep);
  }

  /** Three bytes go whatever the line's separator: a line ending in LF alone
      also loses its last two content bytes. */
  lemma LinuxizedLf(content: Bytes, linesep: Bytes)
    requires |content| >= 2
    ensures Linuxized(content + [EdaUtils.LF], linesep) == content[..|content| - 2] + linesep
  {
    var line := content + [EdaUtils.LF];
    assert line[..|line| - 3] == content[..|content| - 2];
  }
}

=== FILE: wrappers.dfy ===
/** Failure-carrying values used in place of the exceptions the Python code raises. */
module Wrappers {

  datatype Option<+T> = None | Some(value: T)

  datatype Result<+T, +E> = Ok(value: T) | Err(error: E)
}
